=== FILE: README.md ===
# EasyTV service-manager SDK: a Dafny model of its request logic

The SDK is a thin HTTP client for the EasyTV service manager with two classes:

- the **content-owner client** (`src/content_owner.js`) acts for a user. It is
  logged out or logged in, and when logged in it holds the `X-EasyTV-Session`
  header. Every call except `login` first checks that the user is logged in.
- the **service client** (`src/service.js`) acts for a backend service. It
  holds only an API key and attaches it to every request as `X-EasyTV-Key`.

Both clients read responses the same way: HTTP status 200 together with the
application code `Success` returns the body. Anything else throws a
`ServiceManagerError` (`src/error.js`) or, in the cases listed below, a `TypeError`.

The model has no network. Each operation is a pure function. It takes the
client value, the call's arguments, and the response that the request would
receive. It returns the request the call builds (method, URI, body fields,
headers), the next client state, and the value the call resolves with or the
failure it throws.

| file | module | models |
|---|---|---|
| `wrappers.dfy` | `Wrappers` | `Option`, `Result` |
| `decimal.dfy` | `Decimal` | decimal text of integers and its parser |
| `js.dfy` | `Js` | JavaScript values: truthiness, `!= undefined`, string concatenation, default parameters, the numeric-id check |
| `http.dfy` | `Http` | requests, responses, result codes, the success condition |
| `errors.dfy` | `Errors` | `ServiceManagerError` and every failure kind |
| `jobs_path.dfy` | `JobsPath` | the `/limit/<n>/before/<id>` suffix, and `ParseSuffix`, which splits it back into its paging parameters |
| `content_owner.dfy` | `ContentOwner` | the session and one transition per operation |
| `session_protocol.dfy` | `SessionProtocol` | any call on any session, and sequences of calls |
| `service_client.dfy` | `ServiceClient` | the API-key client's operations |
| `service_protocol.dfy` | `ServiceProtocol` | any API-key call, and a comparison of the two clients' response handling |

The model keeps the code's behaviour as written, including these points:

- The parameter of `_result` is named `autoLogout`, and `_logout()` was evidently
  meant at `src/content_owner.js:18`. The code there calls `this._loggedIn()` instead.
  `_loggedIn` is a boolean, so the call throws a `TypeError`, and the session is not changed.
  `SessionProtocol.UnauthorizedKeepsSession` and
  `SessionProtocol.SessionEndsOnlyThroughLogout` state what the code does.
- Unlike `_result`, the transition at `src/content_owner.js:34-41` does not check
  the status. A `Success` code with any other status therefore logs in, and
  `_result` then throws.
- `NotLoggedInError` and `PasswordsDontMatchError` are never defined or imported.
  Their `throw` still fails synchronously before any request is sent. The model
  shows these failures as the kinds `NotLoggedIn` and `PasswordsDontMatch`.
- `_result` reads `response.data.code`. When the body is `undefined` or `null`,
  that read throws a `TypeError`, and `error.js` never runs. The model shows
  this as `TypeError(MissingResponseData)`.
- JavaScript default parameters replace only `undefined`. So `getJobs(undefined)`
  on either client asks for a limit of 50. A `null` limit drops the paging suffix.

## Model

| member | source | states |
|---|---|---|
| `Decimal.IntToString` | src/error.js:7 | the text an integer up to 2^53 in magnitude turns into under string concatenation (plain digits, '-' when negative) parses back to the same number; it is non-empty and has no '/' |
| `Decimal.IntToStringIsCanonical` | src/error.js:7 | that text is spelled as JavaScript spells it: no leading zero except in "0" itself, and no "-0" |
| `Decimal.CanonicalTextIsUnique` | src/error.js:7 | a canonical text that reads back as an integer is exactly `IntToString` of it, so the read-back and the spelling together fix the text |
| `Errors.NewError` | src/error.js:2-10 | with a body: message is `description` and `code` is `data.code`. Without one: no `code`, and the message is "Http Error " plus the status's canonical decimal text (no leading zeros, reads back as the status). Name is always "ServiceManagerError" |
| `Js.NumericIdAndItsText` | src/service.js:79 | a numeric id and its decimal text both pass the id check and print the same path segment |
| `ContentOwner.New` | src/content_owner.js:7-11 | a new client is logged out with no header options, which is a valid session |
| `ContentOwner.ClearSession` | src/content_owner.js:23-26 | `_logout` returns exactly the state of a new client on the same base URI |
| `ContentOwner.Interpret` | src/content_owner.js:14-21 | returns the body iff status is 200 and code is Success. With auto-logout, Unauthorized raises the TypeError from calling the boolean. With auto-logout off, a non-200 always throws the ServiceManagerError. A missing body raises a TypeError whenever its code is read. Otherwise a failing response with a body throws the ServiceManagerError built from it |
| `ContentOwner.Login` | src/content_owner.js:29-44 | sends the credentials with no headers. A Success code logs in with the response's token whatever the status; any other code leaves the session unchanged. It resolves with `response.data` or throws `_result`'s error with auto-logout on, so an Unauthorized code throws the `_loggedIn()` TypeError, and a missing body throws a TypeError before any transition. It succeeds iff the response succeeded, and then the client is logged in. It preserves validity |
| `ContentOwner.Logout` | src/content_owner.js:46-58 | logged out: NotLoggedIn and no request. Otherwise sends DELETE with the session options and always ends in a new client's state, resolving to `true` |
| `ContentOwner.Ping` | src/content_owner.js:60-67 | refused while logged out; otherwise GET `/api/user/ping` with the session options; session unchanged; resolves with `response.data` exactly as `_result` returns it, or throws `_result`'s error (auto-logout on); succeeds iff logged in and the response succeeded |
| `ContentOwner.ChangePassword` | src/content_owner.js:69-82 | the logged-out check wins over the mismatch check, and both fail before any request. Otherwise it sends the three password fields and resolves or throws as `_result` does with auto-logout off. The session never changes and the `_loggedIn()` TypeError is never reached. A non-200 throws the ServiceManagerError |
| `ContentOwner.GetServices` | src/content_owner.js:84-91 | refused while logged out; otherwise GET `/api/service` with the session options; session unchanged; resolves with `response.data` exactly as `_result` returns it, or throws `_result`'s error (auto-logout on) |
| `ContentOwner.GetService` | src/content_owner.js:93-100 | refused while logged out; otherwise GET `/api/service/<id>` with the session options; session unchanged; resolves with `response.data` exactly as `_result` returns it, or throws `_result`'s error (auto-logout on) |
| `ContentOwner.PostJob` | src/content_owner.js:102-112 | refused while logged out; otherwise POST `/api/job` with the three job fields and no session header; session unchanged; resolves with `response.data` exactly as `_result` returns it, or throws `_result`'s error (auto-logout on) |
| `ContentOwner.CancelJob` | src/content_owner.js:114-121 | refused while logged out; otherwise DELETE `/api/job/<id>` with the session options; session unchanged; resolves with `response.data` exactly as `_result` returns it, or throws `_result`'s error (auto-logout on) |
| `ContentOwner.JobsSuffix` | src/content_owner.js:128-136 | the suffix is empty iff the limit (50 when undefined) is falsy. Otherwise it starts with `/limit/<limit>`, and continues, with exactly `/before/<id>`, iff the before-id is truthy too |
| `ContentOwner.GetJobs` | src/content_owner.js:123-140 | refused while logged out; otherwise GET `/api/job` plus the paging suffix with the session options; session unchanged; resolves with `response.data` exactly as `_result` returns it, or throws `_result`'s error (auto-logout on) |
| `ContentOwner.GetJob` | src/content_owner.js:142-149 | refused while logged out; otherwise GET `/api/job/<id>` with the session options; session unchanged; resolves with `response.data` exactly as `_result` returns it, or throws `_result`'s error (auto-logout on) |
| `ContentOwner.JobsSuffixReadsBack` | src/content_owner.js:128-136 | for integer or absent arguments, `ParseSuffix` reads back the limit unless it is 0 or null, and the before-id only when both are non-zero |
| `ContentOwner.JobsPathExamples` | src/content_owner.js:128-136 | `getJobs(10, 5)`, `getJobs(10)`, `getJobs(0, 5)` and `getJobs()` give `/limit/10/before/5`, `/limit/10`, nothing, and `/limit/50` |
| `SessionProtocol.Apply` | src/content_owner.js:29-149 | every call except login is refused while logged out. Every call preserves validity and keeps the base URI. Only login and logout change the session. Every request goes under the base URI |
| `SessionProtocol.Run` | src/content_owner.js:23-44 | any sequence of calls from a valid session ends in a valid one |
| `SessionProtocol.ReachableSessionsAreValid` | src/content_owner.js:7-44 | every session a new client reaches is logged out with no headers, or logged in with exactly the session header |
| `SessionProtocol.LoggedInOnlyThroughLogin` | src/content_owner.js:33-41 | a logged-out client that ends logged in got there through a login whose response carried the Success code |
| `SessionProtocol.SessionEndsOnlyThroughLogout` | src/content_owner.js:14-26 | a logged-in client that ends logged out made a logout call; no response to any other call ends the session |
| `SessionProtocol.LoggedOutCallsSendNothing` | src/content_owner.js:46-149 | while logged out, every authenticated call throws NotLoggedIn, sends no request and leaves the session as it was |
| `SessionProtocol.SecondLogoutFails` | src/content_owner.js:46-58 | after a logout the client is logged out and a second logout is refused with NotLoggedIn |
| `SessionProtocol.LoginThenPing` | src/content_owner.js:33-67 | after a login answered with Success, a ping sends exactly the returned token as its header and succeeds iff its own response does |
| `SessionProtocol.OnlyPostJobOmitsSessionHeader` | src/content_owner.js:102-112 | on a logged-in session, a request has the session header iff it is not postJob's; postJob's has no headers |
| `SessionProtocol.UnauthorizedKeepsSession` | src/content_owner.js:14-21 | an Unauthorized code on an auto-logout call leaves the session logged in and fails with the TypeError from calling `_loggedIn` |
| `SessionProtocol.ChangePasswordKeepsSession` | src/content_owner.js:69-82 | a failing response to changePassword that has a body leaves the session untouched and throws the ServiceManagerError built from it; a 200 without a body throws the TypeError instead, as `ContentOwner.Interpret` states |
| `ServiceClient.KeyOptions` | src/service.js:12-16 | the header options hold exactly the key header, set to the API key |
| `ServiceClient.Interpret` | src/service.js:20-25 | returns the body iff status is 200 and code is Success. Otherwise it throws the ServiceManagerError, or a TypeError exactly when a 200 has no body |
| `ServiceClient.RegisterTask` | src/service.js:28-45 | POST `/internal/task` with the key. It always sends name, description, start_url, input and output. The cancel URL goes to exactly one field: `cancel_rest_url` when useRestCancel is truthy, `cancel_url` otherwise. The call resolves with `response.data` exactly as `_result` returns it, or throws `_result`'s error |
| `ServiceClient.SetTaskAvailability` | src/service.js:47-51 | PUT `/internal/task/<id>` with body `disabled` set to the negation of the availability's truthiness. The call resolves with `response.data` exactly as `_result` returns it, or throws `_result`'s error |
| `ServiceClient.DeleteTask` | src/service.js:53-56 | DELETE `/internal/task/<id>` with the key header. The call resolves with `response.data` exactly as `_result` returns it, or throws `_result`'s error |
| `ServiceClient.GetTasks` | src/service.js:58-61 | GET `/internal/task` with the key header. The call resolves with `response.data` exactly as `_result` returns it, or throws `_result`'s error |
| `ServiceClient.JobsSuffix` | src/service.js:63-72 | the suffix is empty iff the limit (50 when undefined) is null, so 0 keeps it. Otherwise it starts with `/limit/<limit>`, and continues, with exactly `/before/<before>`, iff `before` is neither undefined nor null |
| `ServiceClient.GetJobs` | src/service.js:63-76 | GET `/internal/job` plus the paging suffix with the key header. The call resolves with `response.data` exactly as `_result` returns it, or throws `_result`'s error |
| `ServiceClient.GetJob` | src/service.js:78-85 | returns null with no request iff the id is not numeric; otherwise GET `/internal/job/<id>` with the key header. The call resolves with `response.data` exactly as `_result` returns it, or throws `_result`'s error |
| `ServiceClient.SetStatus` | src/service.js:87-91 | PUT `/internal/job/<id>` with body `{status}` and the key header. The call resolves with `response.data` exactly as `_result` returns it, or throws `_result`'s error |
| `ServiceClient.CancelJob` | src/service.js:93-96 | DELETE `/internal/job/<id>` with the key header. The call resolves with `response.data` exactly as `_result` returns it, or throws `_result`'s error |
| `ServiceClient.GetAssets` | src/service.js:98-101 | GET `/internal/job/<id>/asset` with the key header. The call resolves with `response.data` exactly as `_result` returns it, or throws `_result`'s error |
| `ServiceClient.UploadAsset` | src/service.js:103-113 | POST `/internal/job/<id>/asset` as a multipart form with one field `asset`. Headers are exactly the multipart content type and the key. The call resolves with `response.data` exactly as `_result` returns it, or throws `_result`'s error |
| `ServiceClient.FinishJob` | src/service.js:115-119 | POST `/internal/job/<id>/finish` with body `{output}` and the key header. The call resolves with `response.data` exactly as `_result` returns it, or throws `_result`'s error |
| `ServiceClient.JobsSuffixReadsBack` | src/service.js:63-72 | for integer or absent arguments, `ParseSuffix` reads back the limit (0 included) unless it is null, and the before-id whenever it is given alongside a limit |
| `ServiceClient.GetJobExamples` | src/service.js:78-85 | `getJob("not-a-number")` returns null and sends nothing; `getJob("42")` fetches `/internal/job/42` |
| `ServiceClient.GetJobNumberOrText` | src/service.js:78-85 | a numeric id and its decimal text issue the same request |
| `ServiceProtocol.Perform` | src/service.js:8-119 | a call returns null iff it is getJob with a non-numeric id. Every request sent carries the constructor's API key and goes under `/internal/`. It succeeds iff the response did |
| `ServiceProtocol.AutoLogoutIgnored` | src/service.js:20-25 | `_result` gives the same outcome whatever its autoLogout argument |
| `ServiceProtocol.SameReadingWithoutAutoLogout` | src/content_owner.js:14-21 | with auto-logout off, the content-owner client reads every response exactly as the service client does |
| `ServiceProtocol.AutoLogoutReadingDiffers` | src/content_owner.js:14-21 | with auto-logout on, the two clients differ exactly on an Unauthorized code, or on a non-200 without a body |

## Left out

- The HTTP transport (axios), promises and asynchronous ordering. Each response is an input to the operation that would receive it. axios's own rejection of non-2xx statuses is not modelled, because that library's code is not part of this model.
- Races between overlapping calls on the shared `_loggedIn` and `_axionsOptions` fields. This is a concurrency concern; each operation here is atomic.
- The contents of the multipart body built with `FormData` in `uploadAsset`, which is a foreign API. Only its single field name and the request headers are modelled.
- `codes.js` is not part of this model. `Success` and `Unauthorized` are distinct abstract codes, and every other code is `OtherCode`.
- The default base URI, and JSON serialisation of bodies beyond their field sets. For example, fields whose value is `undefined` are kept here.
- Response bodies that are falsy but not `undefined` or `null`, such as an empty string. A missing `description` or `code` is also left out.
- Js.IsNumericId: approximates `parseFloat`/`isFinite`. It accepts every integer number and every string holding an optional '-' followed by decimal digits. It rejects other values, so fractional, exponent, hexadecimal and whitespace-padded strings, and one-element arrays, are not covered. In the other direction, a digit string too large for a double (such as "1" followed by 400 zeros) fails `isFinite`, so JavaScript returns null where the model sends a request.
- Js.ToStr: numbers are the integers up to 2^53 in magnitude plus NaN. Fractional and infinite numbers, and larger integers, are not modelled: above 2^53 JavaScript writes the shortest digits that round-trip to the double (`"" + 2**60` is "1152921504606847000"), and from 10^21 it uses exponent form (`1e+21`). Arrays stringify as a plain object does here.
- Decimal.IntToString: writes every integer's exact digits. JavaScript does so only up to 2^53 in magnitude, because beyond it prints the shortest round-trip digits. The model's numbers (`Js.PlainInt`, which also types the response status) are therefore bounded to that range.
- ContentOwner.ChangePassword: the passwords are strings, so the loose `!=` comparison of differently typed values is not modelled.

=== FILE: content_owner.dfy ===
/**
 * The content-owner client: a session that is either logged out or logged in
 * with a session header, and one transition per public operation. Each
 * operation takes the session, its arguments and the response its request
 * would receive, and yields the next session, the request it sent (if any)
 * and what the call resolves or fails with.
 */
module ContentOwner {
  import opened Wrappers
  import opened Js
  import opened Http
  import opened Errors
  import opened Decimal
  import opened JobsPath

  const SessionHeader: string := "X-EasyTV-Session"
  const DefaultJobsLimit: int := 50

  /** The client's fields: base URI, `_loggedIn` and the header options `_axionsOptions`. */
  datatype Session = Session(baseUri: string, loggedIn: bool, options: Headers)

  /** Every reachable session: logged out with no headers, or logged in with exactly the session header. */
  predicate Valid(s: Session) {
    if s.loggedIn then s.options.Keys == {SessionHeader} else s.options == map[]
  }

  /** What a call resolves with: the response body, or the `true` that logout resolves with. */
  datatype Reply = Data(body: Body) | Acknowledged

  /** One operation: the next session, the request sent (`None` when a guard threw first), and the outcome. */
  datatype Step = Step(state: Session, request: Option<Request>, result: Result<Reply, Failure>)

  /** The operation threw `why` synchronously: no request, no state change. */
  predicate Refused(s: Session, o: Step, why: Failure) {
    o == Step(s, None, Err(why))
  }

  /** The constructor: a fresh client is logged out with empty options. */
  function New(baseUri: string): (s: Session)
    ensures Valid(s) && !s.loggedIn && s.baseUri == baseUri
  {
    Session(baseUri, false, map[])
  }

  /** `_logout`: back to the state of a freshly constructed client on the same base URI. */
  function ClearSession(s: Session): (r: Session)
    ensures r == New(s.baseUri)
  {
    s.(loggedIn := false, options := map[])
  }

  /**
   * `_result`. A response is returned exactly when it succeeded; every other
   * response throws. With auto-logout on, an Unauthorized code reaches a call of
   * the boolean `_loggedIn`, which throws a TypeError and logs nobody out.
   * Reading `code` off a missing body throws a TypeError whenever the code is read.
   */
  function Interpret(resp: Response, autoLogout: bool): (r: Result<Body, Failure>)
    ensures r.Ok? <==> Succeeded(resp)
    ensures r.Ok? ==> r.value == resp.data.value
    ensures r.Err? && r.error.Service? ==> r.error.error == NewError(resp)
    ensures r.Err? ==> r.error.Service? || r.error.TypeError?
    ensures !autoLogout && resp.status != 200 ==> r == Err(Service(NewError(resp)))
    ensures autoLogout && resp.data.Some? && resp.data.value.code == Unauthorized
            ==> r == Err(TypeError(LoggedInNotCallable))
    ensures resp.data.None? && (resp.status == 200 || autoLogout) ==> r == Err(TypeError(MissingResponseData))
    ensures r.Err? && resp.data.Some? && !(autoLogout && resp.data.value.code == Unauthorized)
            ==> r == Err(Service(NewError(resp)))
  {
    if resp.status == 200 && resp.data.None? then Err(TypeError(MissingResponseData))
    else if resp.status == 200 && resp.data.value.code == Success then Ok(resp.data.value)
    else if !autoLogout then Err(Service(NewError(resp)))
    else if resp.data.None? then Err(TypeError(MissingResponseData))
    else if resp.data.value.code == Unauthorized then Err(TypeError(LoggedInNotCallable))
    else Err(Service(NewError(resp)))
  }

  /** `_result`'s outcome as a call's outcome: the body it returns, or the error it throws, unchanged. */
  function AsReply(r: Result<Body, Failure>): (o: Result<Reply, Failure>)
    ensures o.Ok? <==> r.Ok?
    ensures r.Ok? ==> o.value == Data(r.value)
    ensures r.Err? ==> o.error == r.error
  {
    match r
    case Ok(body) => Ok(Data(body))
    case Err(e) => Err(e)
  }

  /** The shape shared by every authenticated call: the logged-out guard, one request, then `_result`. */
  function Authenticated(s: Session, request: Request, autoLogout: bool, resp: Response): (o: Step)
    ensures !s.loggedIn ==> Refused(s, o, NotLoggedIn)
    ensures s.loggedIn ==> o.request == Some(request)
    ensures s.loggedIn ==> o.result == AsReply(Interpret(resp, autoLogout))
    ensures o.state == s
    ensures o.result.Ok? <==> s.loggedIn && Succeeded(resp)
  {
    if !s.loggedIn then Step(s, None, Err(NotLoggedIn))
    else Step(s, Some(request), AsReply(Interpret(resp, autoLogout)))
  }

  /**
   * `login`. The transition looks at the code alone: a Success code logs in
   * with the returned token even when the status then makes `_result` throw.
   * Any other code leaves the session as it was.
   */
  function Login(s: Session, username: Value, password: Value, resp: Response): (o: Step)
    ensures o.request == Some(Request(Post, s.baseUri + "/api/user/login",
                                      Json(map["username" := username, "password" := password]), map[]))
    ensures resp.data.None? ==> o.result == Err(TypeError(MissingResponseData))
    ensures resp.data.Some? ==> o.result == AsReply(Interpret(resp, true))
    ensures resp.data.Some? && resp.data.value.code == Unauthorized ==> o.result == Err(TypeError(LoggedInNotCallable))
    ensures resp.data.Some? && resp.data.value.code == Success ==>
              o.state == Session(s.baseUri, true, map[SessionHeader := resp.data.value.sessionToken])
    ensures !(resp.data.Some? && resp.data.value.code == Success) ==> o.state == s
    ensures o.result.Ok? <==> Succeeded(resp)
    ensures o.result.Ok? ==> o.state.loggedIn
    ensures Valid(s) ==> Valid(o.state)
  {
    var request := Request(Post, s.baseUri + "/api/user/login",
                           Json(map["username" := username, "password" := password]), map[]);
    match resp.data
    case None => Step(s, Some(request), Err(TypeError(MissingResponseData)))
    case Some(body) =>
      var next := if body.code == Success
                  then s.(loggedIn := true, options := map[SessionHeader := body.sessionToken])
                  else s;
      Step(next, Some(request), AsReply(Interpret(resp, true)))
  }

  /** `logout`. Once the request resolves the client is logged out, whatever the response says. */
  function Logout(s: Session, resp: Response): (o: Step)
    ensures !s.loggedIn ==> Refused(s, o, NotLoggedIn)
    ensures s.loggedIn ==> o.request == Some(Request(Delete, s.baseUri + "/api/user/logout", NoBody, s.options))
    ensures s.loggedIn ==> o.state == New(s.baseUri) && o.result == Ok(Acknowledged)
    ensures Valid(s) ==> Valid(o.state)
  {
    if !s.loggedIn then Step(s, None, Err(NotLoggedIn))
    else Step(ClearSession(s), Some(Request(Delete, s.baseUri + "/api/user/logout", NoBody, s.options)),
              Ok(Acknowledged))
  }

  /** `ping`. */
  function Ping(s: Session, resp: Response): (o: Step)
    ensures !s.loggedIn ==> Refused(s, o, NotLoggedIn)
    ensures s.loggedIn ==> o.request == Some(Request(Get, s.baseUri + "/api/user/ping", NoBody, s.options))
    ensures s.loggedIn ==> o.result == AsReply(Interpret(resp, true))
    ensures o.state == s
    ensures o.result.Ok? <==> s.loggedIn && Succeeded(resp)
  {
    Authenticated(s, Request(Get, s.baseUri + "/api/user/ping", NoBody, s.options), true, resp)
  }

  /**
   * `changePassword`. The logged-out check comes first, then the confirmation
   * check; both throw before any request. The response is read with
   * auto-logout off, so no answer reaches the `_loggedIn()` call.
   */
  function ChangePassword(s: Session, oldPassword: string, newPassword: string, verification: string,
                          resp: Response): (o: Step)
    ensures !s.loggedIn ==> Refused(s, o, NotLoggedIn)
    ensures s.loggedIn && newPassword != verification ==> Refused(s, o, PasswordsDontMatch)
    ensures s.loggedIn && newPassword == verification ==>
              o.request == Some(Request(Post, s.baseUri + "/api/user/change_password",
                                        Json(map["old_password" := Str(oldPassword),
                                                 "new_password" := Str(newPassword),
                                                 "new_password_verification" := Str(verification)]),
                                        s.options))
    ensures s.loggedIn && newPassword == verification ==> o.result == AsReply(Interpret(resp, false))
    ensures o.state == s
    ensures o.result.Ok? <==> s.loggedIn && newPassword == verification && Succeeded(resp)
    ensures o.result != Err(TypeError(LoggedInNotCallable))
    ensures o.request.Some? && resp.status != 200 ==> o.result == Err(Service(NewError(resp)))
  {
    if !s.loggedIn then Step(s, None, Err(NotLoggedIn))
    else if newPassword != verification then Step(s, None, Err(PasswordsDontMatch))
    else
      var request := Request(Post, s.baseUri + "/api/user/change_password",
                             Json(map["old_password" := Str(oldPassword),
                                      "new_password" := Str(newPassword),
                                      "new_password_verification" := Str(verification)]),
                             s.options);
      Authenticated(s, request, false, resp)
  }

  /** `getServices`. */
  function GetServices(s: Session, resp: Response): (o: Step)
    ensures !s.loggedIn ==> Refused(s, o, NotLoggedIn)
    ensures s.loggedIn ==> o.request == Some(Request(Get, s.baseUri + "/api/service", NoBody, s.options))
    ensures s.loggedIn ==> o.result == AsReply(Interpret(resp, true))
    ensures o.state == s
    ensures o.result.Ok? <==> s.loggedIn && Succeeded(resp)
  {
    Authenticated(s, Request(Get, s.baseUri + "/api/service", NoBody, s.options), true, resp)
  }

  /** `getService`. */
  function GetService(s: Session, serviceId: Value, resp: Response): (o: Step)
    ensures !s.loggedIn ==> Refused(s, o, NotLoggedIn)
    ensures s.loggedIn ==>
              o.request == Some(Request(Get, s.baseUri + "/api/service/" + ToStr(serviceId), NoBody, s.options))
    ensures s.loggedIn ==> o.result == AsReply(Interpret(resp, true))
    ensures o.state == s
    ensures o.result.Ok? <==> s.loggedIn && Succeeded(resp)
  {
    Authenticated(s, Request(Get, s.baseUri + "/api/service/" + ToStr(serviceId), NoBody, s.options), true, resp)
  }

  /** `postJob`. Unlike every other authenticated call, its request carries no session header. */
  function PostJob(s: Session, publicationDate: Value, expirationDate: Value, tasks: Value,
                   resp: Response): (o: Step)
    ensures !s.loggedIn ==> Refused(s, o, NotLoggedIn)
    ensures s.loggedIn ==>
              o.request == Some(Request(Post, s.baseUri + "/api/job",
                                        Json(map["publication_date" := publicationDate,
                                                 "expiration_date" := expirationDate,
                                                 "tasks" := tasks]),
                                        map[]))
    ensures o.request.Some? ==> SessionHeader !in o.request.value.headers
    ensures s.loggedIn ==> o.result == AsReply(Interpret(resp, true))
    ensures o.state == s
    ensures o.result.Ok? <==> s.loggedIn && Succeeded(resp)
  {
    var request := Request(Post, s.baseUri + "/api/job",
                           Json(map["publication_date" := publicationDate,
                                    "expiration_date" := expirationDate,
                                    "tasks" := tasks]),
                           map[]);
    Authenticated(s, request, true, resp)
  }

  /** `cancelJob`. */
  function CancelJob(s: Session, jobId: Value, resp: Response): (o: Step)
    ensures !s.loggedIn ==> Refused(s, o, NotLoggedIn)
    ensures s.loggedIn ==>
              o.request == Some(Request(Delete, s.baseUri + "/api/job/" + ToStr(jobId), NoBody, s.options))
    ensures s.loggedIn ==> o.result == AsReply(Interpret(resp, true))
    ensures o.state == s
    ensures o.result.Ok? <==> s.loggedIn && Succeeded(resp)
  {
    Authenticated(s, Request(Delete, s.baseUri + "/api/job/" + ToStr(jobId), NoBody, s.options), true, resp)
  }

  /**
   * The paging suffix of `getJobs(limit = 50, beforeJobId = null)`: the limit
   * only when it is truthy, the before-id only when both are truthy.
   */
  function JobsSuffix(limit: Value, beforeJobId: Value): (r: string)
    ensures r == "" <==> !Truthy(WithDefault(limit, Number(DefaultJobsLimit)))
    ensures r != "" ==> StartsWith(r, LimitSegment + ToStr(WithDefault(limit, Number(DefaultJobsLimit))))
    ensures var l := WithDefault(limit, Number(DefaultJobsLimit));
            var b := WithDefault(beforeJobId, Null);
            Truthy(l) ==> (|r| > |LimitSegment + ToStr(l)| <==> Truthy(b))
    ensures var l := WithDefault(limit, Number(DefaultJobsLimit));
            var b := WithDefault(beforeJobId, Null);
            Truthy(l) && Truthy(b) ==> r[|LimitSegment + ToStr(l)|..] == BeforeSegment + ToStr(b)
  {
    var l := WithDefault(limit, Number(DefaultJobsLimit));
    var b := WithDefault(beforeJobId, Null);
    if Truthy(l) then
      var r := LimitSegment + ToStr(l) + (if Truthy(b) then BeforeSegment + ToStr(b) else "");
      assert r[..|LimitSegment + ToStr(l)|] == LimitSegment + ToStr(l);
      r
    else ""
  }

  /** `getJobs`. */
  function GetJobs(s: Session, limit: Value, beforeJobId: Value, resp: Response): (o: Step)
    ensures !s.loggedIn ==> Refused(s, o, NotLoggedIn)
    ensures s.loggedIn ==>
              o.request == Some(Request(Get, s.baseUri + "/api/job" + JobsSuffix(limit, beforeJobId),
                                        NoBody, s.options))
    ensures s.loggedIn ==> o.result == AsReply(Interpret(resp, true))
    ensures o.state == s
    ensures o.result.Ok? <==> s.loggedIn && Succeeded(resp)
  {
    Authenticated(s, Request(Get, s.baseUri + "/api/job" + JobsSuffix(limit, beforeJobId), NoBody, s.options),
                  true, resp)
  }

  /** `getJob`. */
  function GetJob(s: Session, jobId: Value, resp: Response): (o: Step)
    ensures !s.loggedIn ==> Refused(s, o, NotLoggedIn)
    ensures s.loggedIn ==>
              o.request == Some(Request(Get, s.baseUri + "/api/job/" + ToStr(jobId), NoBody, s.options))
    ensures s.loggedIn ==> o.result == AsReply(Interpret(resp, true))
    ensures o.state == s
    ensures o.result.Ok? <==> s.loggedIn && Succeeded(resp)
  {
    Authenticated(s, Request(Get, s.baseUri + "/api/job/" + ToStr(jobId), NoBody, s.options), true, resp)
  }

  /**
   * The paging ParseSuffix reads back from `getJobs`: the limit (50 when
   * omitted) unless it is 0 or null, and the before-id only alongside a limit.
   */
  lemma JobsSuffixReadsBack(limit: Value, beforeJobId: Value)
    requires IntOrAbsent(limit) && IntOrAbsent(beforeJobId)
    ensures var l := WithDefault(limit, Number(DefaultJobsLimit));
            ParseSuffix(JobsSuffix(limit, beforeJobId))
            == Some(if l.Number? && l.n != 0
                    then Query(Some(l.n), if beforeJobId.Number? && beforeJobId.n != 0
                                          then Some(beforeJobId.n) else None)
                    else Query(None, None))
  {
    var l := WithDefault(limit, Number(DefaultJobsLimit));
    if l.Number? && l.n != 0 {
      assert Truthy(l) && ToStr(l) == IntToString(l.n);
      if beforeJobId.Number? && beforeJobId.n != 0 {
        assert WithDefault(beforeJobId, Null) == beforeJobId && ToStr(beforeJobId) == IntToString(beforeJobId.n);
        ParseLimitBefore(l.n, beforeJobId.n);
        assert JobsSuffix(limit, beforeJobId)
               == LimitSegment + IntToString(l.n) + BeforeSegment + IntToString(beforeJobId.n);
      } else {
        assert !Truthy(WithDefault(beforeJobId, Null));
        ParseLimitOnly(l.n);
        assert JobsSuffix(limit, beforeJobId) == LimitSegment + IntToString(l.n);
      }
    }
  }

  /** The decimal text of the numbers the path examples use. */
  lemma SmallNumberTexts()
    ensures ToStr(Number(5)) == "5" && ToStr(Number(10)) == "10" && ToStr(Number(50)) == "50"
  {
    assert NatToString(1) == "1" && NatToString(5) == "5" && DigitChar(0) == '0';
  }

  /** The paths `getJobs(10, 5)`, `getJobs(10)`, `getJobs(0, 5)` and `getJobs()` build. */
  lemma JobsPathExamples()
    ensures JobsSuffix(Number(10), Number(5)) == "/limit/10/before/5"
    ensures JobsSuffix(Number(10), Undefined) == "/limit/10"
    ensures JobsSuffix(Number(0), Number(5)) == ""
    ensures JobsSuffix(Undefined, Undefined) == "/limit/50"
  {
    SmallNumberTexts();
  }
}

=== FILE: decimal.dfy ===
/**
 * Decimal text of integers, as JavaScript writes a number into a string
 * (`"Http Error " + status`, `"/limit/" + limit`), and the parser that reads it back.
 */
module Decimal {
  import opened Wrappers

  predicate IsDigit(c: char) {
    '0' <= c <= '9'
  }

  /** A non-empty run of decimal digits. */
  predicate IsDigits(s: string) {
    |s| > 0 && forall i :: 0 <= i < |s| ==> IsDigit(s[i])
  }

  function DigitChar(d: nat): (c: char)
    requires d < 10
    ensures IsDigit(c)
    ensures c as int - '0' as int == d
  {
    ('0' as int + d) as char
  }

  /** The shortest decimal text of `n`, most significant digit first. */
  function NatToString(n: nat): (s: string)
    ensures IsDigits(s)
    ensures n < 10 <==> |s| == 1
  {
    if n < 10 then [DigitChar(n)] else NatToString(n / 10) + [DigitChar(n % 10)]
  }

  /**
   * The spelling JavaScript gives an integer: no leading zeros except for "0"
   * itself, and no "-0".
   */
  predicate Canonical(s: string) {
    |s| > 0 &&
    if s[0] == '-' then |s| > 1 && s[1] != '0' else s[0] != '0' || s == "0"
  }

  /** The value of a run of decimal digits. */
  function ParseNat(s: string): (n: nat)
    requires IsDigits(s)
  {
    var last := s[|s| - 1] as int - '0' as int;
    if |s| == 1 then last else 10 * ParseNat(s[..|s| - 1]) + last
  }

  /** Decimal text of an integer, with a leading '-' when it is negative. */
  function IntToString(i: int): (s: string)
    ensures ParseInt(s) == Some(i)
    ensures |s| > 0 && '/' !in s
  {
    var magnitude := NatToString(if i < 0 then -i else i);
    ParseNatInvertsNatToString(if i < 0 then -i else i);
    if i < 0 then
      var s := "-" + magnitude;
      assert s[1..] == magnitude;
      assert !IsDigit(s[0]);
      s
    else
      magnitude
  }

  /** Reads an optional '-' followed by decimal digits; anything else is `None`. */
  function ParseInt(s: string): (r: Option<int>)
    ensures r.Some? <==> IsDigits(s) || (|s| > 1 && s[0] == '-' && IsDigits(s[1..]))
  {
    if IsDigits(s) then Some(ParseNat(s))
    else if |s| > 1 && s[0] == '-' && IsDigits(s[1..]) then
      var magnitude: int := ParseNat(s[1..]);
      Some(-magnitude)
    else None
  }

  /** Only zero is written with a leading '0'. */
  lemma {:induction false} NatToStringLeadingDigit(n: nat)
    ensures NatToString(n)[0] == '0' ==> n == 0
  {
    if n >= 10 {
      NatToStringLeadingDigit(n / 10);
    }
  }

  /** IntToString writes the canonical spelling, so its text is the one JavaScript prints. */
  lemma IntToStringIsCanonical(i: int)
    ensures Canonical(IntToString(i))
  {
    NatToStringLeadingDigit(if i < 0 then -i else i);
  }

  /** A run of digits with no leading zero has a positive value. */
  lemma {:induction false} LeadingNonZeroIsPositive(s: string)
    requires IsDigits(s) && s[0] != '0'
    ensures ParseNat(s) > 0
  {
    if |s| > 1 {
      LeadingNonZeroIsPositive(s[..|s| - 1]);
    }
  }

  /** A run of digits with no leading zero (or "0" itself) is the text NatToString writes. */
  lemma {:induction false} NatToStringInvertsParseNat(s: string)
    requires IsDigits(s) && (s[0] != '0' || s == "0")
    ensures NatToString(ParseNat(s)) == s
  {
    if |s| > 1 {
      var prefix := s[..|s| - 1];
      LeadingNonZeroIsPositive(prefix);
      NatToStringInvertsParseNat(prefix);
      assert s == prefix + [s[|s| - 1]];
    }
  }

  /** The read-back and the canonical spelling together determine the text. */
  lemma CanonicalTextIsUnique(s: string, i: int)
    requires Canonical(s) && ParseInt(s) == Some(i)
    ensures s == IntToString(i)
  {
    if IsDigits(s) {
      NatToStringInvertsParseNat(s);
    } else {
      var magnitude := s[1..];
      NatToStringInvertsParseNat(magnitude);
      LeadingNonZeroIsPositive(magnitude);
      assert s == "-" + magnitude;
    }
  }

  lemma {:induction false} ParseNatInvertsNatToString(n: nat)
    ensures ParseNat(NatToString(n)) == n
  {
    if n >= 10 {
      var s := NatToString(n);
      assert s[..|s| - 1] == NatToString(n / 10);
      ParseNatInvertsNatToString(n / 10);
    }
  }
}

=== FILE: errors.dfy ===
/** The error the clients throw for a failed response, and every other way a call can fail. */
module Errors {
  import opened Wrappers
  import opened Decimal
  import opened Http

  const ErrorName: string := "ServiceManagerError"
  const HttpErrorPrefix: string := "Http Error "

  /** An Error object: its message, its `code` property when one is set, and its name. */
  datatype ServiceError = ServiceError(message: string, code: Option<Code>, name: string)

  /**
   * The ServiceManagerError constructor. With a body the error repeats the
   * server's description and code; without one it only reports the HTTP status,
   * and that status can be read back from the message.
   */
  function NewError(resp: Response): (e: ServiceError)
    ensures e.name == ErrorName
    ensures resp.data.Some? ==> e.message == resp.data.value.description
    ensures resp.data.Some? <==> e.code.Some?
    ensures resp.data.Some? ==> e.code == Some(resp.data.value.code)
    ensures resp.data.None? ==>
              && |HttpErrorPrefix| < |e.message|
              && e.message[..|HttpErrorPrefix|] == HttpErrorPrefix
              && ParseInt(e.message[|HttpErrorPrefix|..]) == Some(resp.status)
              && Canonical(e.message[|HttpErrorPrefix|..])
  {
    match resp.data
    case Some(body) => ServiceError(body.description, Some(body.code), ErrorName)
    case None =>
      var message := HttpErrorPrefix + IntToString(resp.status);
      assert message[|HttpErrorPrefix|..] == IntToString(resp.status);
      IntToStringIsCanonical(resp.status);
      ServiceError(message, None, ErrorName)
  }

  /** Why a call raised a TypeError instead of a ServiceManagerError. */
  datatype TypeErrorCause =
    | MissingResponseData   // `response.data.code` read on an undefined or null body
    | LoggedInNotCallable   // `this._loggedIn()` called on a boolean

  /** Every way a call can fail. */
  datatype Failure =
    | NotLoggedIn                  // thrown before any request while logged out
    | PasswordsDontMatch           // thrown before any request on a confirmation mismatch
    | Service(error: ServiceError) // the response was not a success
    | TypeError(cause: TypeErrorCause)
}

=== FILE: http.dfy ===
/**
 * What one network round trip looks like from inside the clients: the request
 * they build and the response the transport hands back.
 */
module Http {
  import opened Wrappers
  import opened Js

  datatype Method = Get | Post | Put | Delete

  /** Header name to header value, as passed in the transport's `headers` option. */
  type Headers = map<string, Value>

  /** The request body: none, a JSON object given by its field set, or a multipart form with one field. */
  datatype Payload =
    | NoBody
    | Json(fields: map<string, Value>)
    | Multipart(field: string, content: Value)

  datatype Request = Request(verb: Method, uri: string, payload: Payload, headers: Headers)

  /**
   * The application-level result code. The numeric constants live outside this
   * model; all that matters is that Success and Unauthorized differ from each other and from the rest.
   */
  datatype Code = Success | Unauthorized | OtherCode(value: int)

  /** The decoded response body: `code`, `description` and, after a login, `session_token`. */
  datatype Body = Body(code: Code, description: string, sessionToken: Value)

  /** A resolved response; `data` is `None` when the body is `undefined` or `null`. */
  datatype Response = Response(status: PlainInt, data: Option<Body>)

  /** The one success condition both clients recognise: HTTP 200 and code Success. */
  predicate Succeeded(resp: Response) {
    resp.status == 200 && resp.data.Some? && resp.data.value.code == Success
  }
}

=== FILE: jobs_path.dfy ===
/**
 * The `/limit/<n>/before/<id>` suffix both clients append to their job-list path,
 * and a reader that splits it back into the paging parameters it carries.
 */
module JobsPath {
  import opened Wrappers
  import opened Decimal

  const LimitSegment: string := "/limit/"
  const BeforeSegment: string := "/before/"

  /** The paging parameters a job-list path carries. */
  datatype Query = Query(limit: Option<int>, before: Option<int>)

  /** The position of the first `c` in `s`. */
  function IndexOf(s: string, c: char): (r: Option<nat>)
    ensures r.Some? ==> r.value < |s| && s[r.value] == c
    ensures r.Some? ==> forall j :: 0 <= j < r.value ==> s[j] != c
    ensures r.None? ==> forall j :: 0 <= j < |s| ==> s[j] != c
  {
    if |s| == 0 then None
    else if s[0] == c then Some(0)
    else match IndexOf(s[1..], c)
      case None => None
      case Some(k) => Some(k + 1)
  }

  predicate StartsWith(s: string, prefix: string) {
    |prefix| <= |s| && s[..|prefix|] == prefix
  }

  /** Reads the paging parameters out of a job-list suffix; `None` for anything malformed. */
  function ParseSuffix(s: string): Option<Query> {
    if s == "" then Some(Query(None, None))
    else if !StartsWith(s, LimitSegment) then None
    else
      var rest := s[|LimitSegment|..];
      match IndexOf(rest, '/')
      case None =>
        (match ParseInt(rest)
         case Some(limit) => Some(Query(Some(limit), None))
         case None => None)
      case Some(k) =>
        var tail := rest[k..];
        if !StartsWith(tail, BeforeSegment) then None
        else
          match (ParseInt(rest[..k]), ParseInt(tail[|BeforeSegment|..]))
          case (Some(limit), Some(before)) => Some(Query(Some(limit), Some(before)))
          case _ => None
  }

  /** A slash-free head is skipped whole by the search for the first '/'. */
  lemma IndexOfPastSlashFree(head: string, tail: string)
    requires '/' !in head
    requires |tail| > 0 && tail[0] == '/'
    ensures IndexOf(head + tail, '/') == Some(|head|)
  {
    var s := head + tail;
    assert s[|head|] == '/';
    assert forall j :: 0 <= j < |head| ==> s[j] == head[j];
  }

  /** A limit alone reads back as that limit. */
  lemma ParseLimitOnly(limit: int)
    ensures ParseSuffix(LimitSegment + IntToString(limit)) == Some(Query(Some(limit), None))
  {
    var s := LimitSegment + IntToString(limit);
    assert s[..|LimitSegment|] == LimitSegment;
    assert s[|LimitSegment|..] == IntToString(limit);
  }

  /** A limit followed by a before-id reads back as both. */
  lemma ParseLimitBefore(limit: int, before: int)
    ensures ParseSuffix(LimitSegment + IntToString(limit) + BeforeSegment + IntToString(before))
            == Some(Query(Some(limit), Some(before)))
  {
    var l := IntToString(limit);
    var b := IntToString(before);
    var s := LimitSegment + l + BeforeSegment + b;
    var rest := s[|LimitSegment|..];
    assert s[..|LimitSegment|] == LimitSegment;
    assert rest == l + (BeforeSegment + b);
    IndexOfPastSlashFree(l, BeforeSegment + b);
    assert rest[..|l|] == l;
    var tail := rest[|l|..];
    assert tail == BeforeSegment + b;
    assert tail[..|BeforeSegment|] == BeforeSegment;
    assert tail[|BeforeSegment|..] == b;
  }
}

=== FILE: js.dfy ===
/**
 * The handful of JavaScript value semantics the clients lean on: truthiness,
 * loose comparison with `undefined`, string concatenation and default parameters.
 */
module Js {
  import opened Decimal

  /**
   * One past 2^53. Up to 2^53 in magnitude every integer is a double and JavaScript
   * writes its exact decimal digits; above that it writes the shortest digits that
   * round-trip to the double, which are not the integer's own.
   */
  const PlainDigitsBound: int := 9_007_199_254_740_993

  /** The integers (|n| <= 2^53) whose JavaScript text is their exact decimal digits. */
  type PlainInt = n: int | -PlainDigitsBound < n < PlainDigitsBound

  /**
   * A JavaScript value as an argument or a response field. Numbers are the
   * integers up to 2^53 in magnitude plus NaN; `Obj` stands for any object or
   * array passed through untouched.
   */
  datatype Value =
    | Undefined
    | Null
    | Bool(b: bool)
    | Number(n: PlainInt)
    | NaN
    | Str(s: string)
    | Obj(ref: nat)

  /** JavaScript truthiness, as an `if (v)` test reads it. */
  predicate Truthy(v: Value) {
    match v
    case Undefined => false
    case Null => false
    case NaN => false
    case Bool(b) => b
    case Number(n) => n != 0
    case Str(s) => s != ""
    case Obj(_) => true
  }

  /** `v != undefined` under loose equality: only `undefined` and `null` compare equal to it. */
  predicate IsDefined(v: Value) {
    !v.Undefined? && !v.Null?
  }

  /** A value a job-list path can carry back: an integer, or absent. */
  predicate IntOrAbsent(v: Value) {
    v.Number? || v.Undefined? || v.Null?
  }

  /** The text `"" + v` produces. */
  function ToStr(v: Value): string {
    match v
    case Undefined => "undefined"
    case Null => "null"
    case NaN => "NaN"
    case Bool(b) => if b then "true" else "false"
    case Number(n) => IntToString(n)
    case Str(s) => s
    case Obj(_) => "[object Object]"
  }

  /** A parameter declared `p = fallback`: the fallback replaces `undefined` and nothing else. */
  function WithDefault(arg: Value, fallback: Value): Value {
    if arg.Undefined? then fallback else arg
  }

  /**
   * An approximation of the id check `!isNaN(parseFloat(id)) && isFinite(id)`:
   * every number but NaN, and strings holding an optional '-' and decimal digits.
   * It differs from JavaScript on strings such as "1e3" or " 42", which JavaScript
   * accepts, and on digit strings too large for a double, which JavaScript rejects.
   */
  predicate IsNumericId(v: Value) {
    match v
    case Number(_) => true
    case Str(s) => ParseInt(s).Some?
    case _ => false
  }

  /** A number id and its decimal text pass the same check and print the same path segment. */
  lemma NumericIdAndItsText(n: PlainInt)
    ensures IsNumericId(Number(n)) && IsNumericId(Str(IntToString(n)))
    ensures ToStr(Number(n)) == ToStr(Str(IntToString(n)))
  {
  }
}

=== FILE: service_client.dfy ===
/**
 * The API-key client: no session, one immutable key header attached to every
 * request. Each operation takes the client, its arguments and the response its
 * request would receive, and yields the request it sent and what the call
 * resolves or fails with.
 */
module ServiceClient {
  import opened Wrappers
  import opened Js
  import opened Http
  import opened Errors
  import opened Decimal
  import opened JobsPath

  const KeyHeader: string := "X-EasyTV-Key"
  const DefaultJobsLimit: int := 50

  /** The client's fields: the API key and the base URI, both fixed at construction. */
  datatype Client = Client(apiKey: Value, baseUri: string)

  /** `_apiKeyHeader`: the options every JSON request is sent with. */
  function KeyOptions(c: Client): (h: Headers)
    ensures h.Keys == {KeyHeader} && h[KeyHeader] == c.apiKey
  {
    map[KeyHeader := c.apiKey]
  }

  /** A request that was sent, and what the call resolves or fails with. */
  datatype Call = Call(request: Request, result: Result<Body, Failure>)

  /**
   * `_result`. A response is returned exactly when it succeeded; every other
   * response throws a ServiceManagerError, except a 200 without a body, whose
   * `code` cannot be read. The `autoLogout` argument plays no part.
   */
  function Interpret(resp: Response, autoLogout: bool): (r: Result<Body, Failure>)
    ensures r.Ok? <==> Succeeded(resp)
    ensures r.Ok? ==> r.value == resp.data.value
    ensures r.Err? ==> r == Err(Service(NewError(resp))) || r == Err(TypeError(MissingResponseData))
    ensures r == Err(TypeError(MissingResponseData)) <==> resp.status == 200 && resp.data.None?
  {
    if resp.status == 200 && resp.data.None? then Err(TypeError(MissingResponseData))
    else if resp.status == 200 && resp.data.value.code == Success then Ok(resp.data.value)
    else Err(Service(NewError(resp)))
  }

  /** Sends `request` and reads the response with `_result`, whose `autoLogout` the calls leave undefined. */
  function Send(request: Request, resp: Response): (o: Call)
    ensures o.request == request
    ensures o.result == Interpret(resp, false)
    ensures o.result.Ok? <==> Succeeded(resp)
  {
    Call(request, Interpret(resp, false))
  }

  /** The fields `registerTask` always sends. */
  const TaskFields: set<string> := {"name", "description", "start_url", "input", "output"}

  /**
   * `registerTask`. The cancel URL goes in exactly one of `cancel_rest_url`
   * (when `useRestCancel` is truthy) and `cancel_url` (otherwise).
   */
  function RegisterTask(c: Client, name: Value, description: Value, startUrl: Value, cancelUrl: Value,
                        input: Value, output: Value, useRestCancel: Value, resp: Response): (o: Call)
    ensures o.request.verb == Post && o.request.uri == c.baseUri + "/internal/task"
    ensures o.request.headers == KeyOptions(c)
    ensures o.request.payload.Json?
    ensures var f := o.request.payload.fields;
            && f.Keys == TaskFields + {if Truthy(useRestCancel) then "cancel_rest_url" else "cancel_url"}
            && f["name"] == name && f["description"] == description && f["start_url"] == startUrl
            && f["input"] == input && f["output"] == output
            && ("cancel_rest_url" in f <==> Truthy(useRestCancel))
            && ("cancel_url" in f <==> !Truthy(useRestCancel))
            && (if Truthy(useRestCancel) then f["cancel_rest_url"] else f["cancel_url"]) == cancelUrl
    ensures o.result == Interpret(resp, false)
    ensures o.result.Ok? <==> Succeeded(resp)
  {
    var data := map["name" := name, "description" := description, "start_url" := startUrl,
                    "input" := input, "output" := output];
    var cancelField := if Truthy(WithDefault(useRestCancel, Bool(false))) then "cancel_rest_url" else "cancel_url";
    Send(Request(Post, c.baseUri + "/internal/task", Json(data[cancelField := cancelUrl]), KeyOptions(c)), resp)
  }

  /** `setTaskAvailability`: the body's `disabled` flag is the negation of `availability`. */
  function SetTaskAvailability(c: Client, taskId: Value, availability: Value, resp: Response): (o: Call)
    ensures o.request.verb == Put && o.request.uri == c.baseUri + "/internal/task/" + ToStr(taskId)
    ensures o.request.headers == KeyOptions(c)
    ensures o.request.payload == Json(map["disabled" := Bool(!Truthy(availability))])
    ensures o.request.payload.fields["disabled"] == Bool(true) <==> !Truthy(availability)
    ensures o.result == Interpret(resp, false)
    ensures o.result.Ok? <==> Succeeded(resp)
  {
    Send(Request(Put, c.baseUri + "/internal/task/" + ToStr(taskId),
                 Json(map["disabled" := Bool(!Truthy(availability))]), KeyOptions(c)), resp)
  }

  /** `deleteTask`. */
  function DeleteTask(c: Client, taskId: Value, resp: Response): (o: Call)
    ensures o.request == Request(Delete, c.baseUri + "/internal/task/" + ToStr(taskId), NoBody, KeyOptions(c))
    ensures o.result == Interpret(resp, false)
    ensures o.result.Ok? <==> Succeeded(resp)
  {
    Send(Request(Delete, c.baseUri + "/internal/task/" + ToStr(taskId), NoBody, KeyOptions(c)), resp)
  }

  /** `getTasks`. */
  function GetTasks(c: Client, resp: Response): (o: Call)
    ensures o.request == Request(Get, c.baseUri + "/internal/task", NoBody, KeyOptions(c))
    ensures o.result == Interpret(resp, false)
    ensures o.result.Ok? <==> Succeeded(resp)
  {
    Send(Request(Get, c.baseUri + "/internal/task", NoBody, KeyOptions(c)), resp)
  }

  /**
   * The paging suffix of `getJobs(limit = 50, before = undefined)`: the limit
   * whenever it is neither undefined nor null (0 included), the before-id only
   * when it is defined as well.
   */
  function JobsSuffix(limit: Value, before: Value): (r: string)
    ensures r == "" <==> WithDefault(limit, Number(DefaultJobsLimit)).Null?
    ensures r != "" ==> StartsWith(r, LimitSegment + ToStr(WithDefault(limit, Number(DefaultJobsLimit))))
    ensures var l := WithDefault(limit, Number(DefaultJobsLimit));
            IsDefined(l) ==> (|r| > |LimitSegment + ToStr(l)| <==> IsDefined(before))
    ensures var l := WithDefault(limit, Number(DefaultJobsLimit));
            IsDefined(l) && IsDefined(before) ==> r[|LimitSegment + ToStr(l)|..] == BeforeSegment + ToStr(before)
  {
    var l := WithDefault(limit, Number(DefaultJobsLimit));
    if IsDefined(l) then
      var r := LimitSegment + ToStr(l) + (if IsDefined(before) then BeforeSegment + ToStr(before) else "");
      assert r[..|LimitSegment + ToStr(l)|] == LimitSegment + ToStr(l);
      r
    else ""
  }

  /** `getJobs`. */
  function GetJobs(c: Client, limit: Value, before: Value, resp: Response): (o: Call)
    ensures o.request == Request(Get, c.baseUri + "/internal/job" + JobsSuffix(limit, before), NoBody, KeyOptions(c))
    ensures o.result == Interpret(resp, false)
    ensures o.result.Ok? <==> Succeeded(resp)
  {
    Send(Request(Get, c.baseUri + ("/internal/job" + JobsSuffix(limit, before)), NoBody, KeyOptions(c)), resp)
  }

  /**
   * `getJob`. An id that is not a finite number returns null at once, with no
   * request; any other id is fetched.
   */
  function GetJob(c: Client, jobId: Value, resp: Response): (o: Option<Call>)
    ensures o.None? <==> !IsNumericId(jobId)
    ensures o.Some? ==> o.value.request == Request(Get, c.baseUri + "/internal/job/" + ToStr(jobId), NoBody,
                                                   KeyOptions(c))
    ensures o.Some? ==> o.value.result == Interpret(resp, false)
    ensures o.Some? ==> (o.value.result.Ok? <==> Succeeded(resp))
  {
    if !IsNumericId(jobId) then None
    else Some(Send(Request(Get, c.baseUri + "/internal/job/" + ToStr(jobId), NoBody, KeyOptions(c)), resp))
  }

  /** `setStatus`. */
  function SetStatus(c: Client, jobId: Value, status: Value, resp: Response): (o: Call)
    ensures o.request == Request(Put, c.baseUri + "/internal/job/" + ToStr(jobId),
                                 Json(map["status" := status]), KeyOptions(c))
    ensures o.result == Interpret(resp, false)
    ensures o.result.Ok? <==> Succeeded(resp)
  {
    Send(Request(Put, c.baseUri + "/internal/job/" + ToStr(jobId), Json(map["status" := status]), KeyOptions(c)),
         resp)
  }

  /** `cancelJob`. */
  function CancelJob(c: Client, jobId: Value, resp: Response): (o: Call)
    ensures o.request == Request(Delete, c.baseUri + "/internal/job/" + ToStr(jobId), NoBody, KeyOptions(c))
    ensures o.result == Interpret(resp, false)
    ensures o.result.Ok? <==> Succeeded(resp)
  {
    Send(Request(Delete, c.baseUri + "/internal/job/" + ToStr(jobId), NoBody, KeyOptions(c)), resp)
  }

  /** `getAssets`. */
  function GetAssets(c: Client, jobId: Value, resp: Response): (o: Call)
    ensures o.request == Request(Get, c.baseUri + "/internal/job/" + ToStr(jobId) + "/asset", NoBody,
                                 KeyOptions(c))
    ensures o.result == Interpret(resp, false)
    ensures o.result.Ok? <==> Succeeded(resp)
  {
    Send(Request(Get, c.baseUri + "/internal/job/" + ToStr(jobId) + "/asset", NoBody, KeyOptions(c)), resp)
  }

  /**
   * `uploadAsset`: a multipart form with the single field `asset`, sent with its
   * own headers, which repeat the key next to the multipart content type.
   */
  function UploadAsset(c: Client, asset: Value, jobId: Value, resp: Response): (o: Call)
    ensures o.request.verb == Post
    ensures o.request.uri == c.baseUri + "/internal/job/" + ToStr(jobId) + "/asset"
    ensures o.request.payload == Multipart("asset", asset)
    ensures o.request.headers.Keys == {"Content-Type", KeyHeader}
    ensures o.request.headers[KeyHeader] == c.apiKey
    ensures o.request.headers["Content-Type"] == Str("multipart/form-data")
    ensures o.result == Interpret(resp, false)
    ensures o.result.Ok? <==> Succeeded(resp)
  {
    var headers := map["Content-Type" := Str("multipart/form-data"), KeyHeader := c.apiKey];
    Send(Request(Post, c.baseUri + "/internal/job/" + ToStr(jobId) + "/asset", Multipart("asset", asset), headers),
         resp)
  }

  /** `finishJob`. */
  function FinishJob(c: Client, jobId: Value, output: Value, resp: Response): (o: Call)
    ensures o.request == Request(Post, c.baseUri + "/internal/job/" + ToStr(jobId) + "/finish",
                                 Json(map["output" := output]), KeyOptions(c))
    ensures o.result == Interpret(resp, false)
    ensures o.result.Ok? <==> Succeeded(resp)
  {
    Send(Request(Post, c.baseUri + "/internal/job/" + ToStr(jobId) + "/finish", Json(map["output" := output]),
                 KeyOptions(c)), resp)
  }

  /** The paging ParseSuffix reads back from `getJobs`: only a null limit drops the suffix, and 0 is kept. */
  lemma JobsSuffixReadsBack(limit: Value, before: Value)
    requires IntOrAbsent(limit) && IntOrAbsent(before)
    ensures var l := WithDefault(limit, Number(DefaultJobsLimit));
            ParseSuffix(JobsSuffix(limit, before))
            == Some(if l.Number?
                    then Query(Some(l.n), if before.Number? then Some(before.n) else None)
                    else Query(None, None))
  {
    var l := WithDefault(limit, Number(DefaultJobsLimit));
    if l.Number? {
      if before.Number? {
        ParseLimitBefore(l.n, before.n);
        assert JobsSuffix(limit, before) == LimitSegment + IntToString(l.n) + BeforeSegment + IntToString(before.n);
      } else {
        ParseLimitOnly(l.n);
        assert JobsSuffix(limit, before) == LimitSegment + IntToString(l.n);
      }
    }
  }

  /** `getJob("not-a-number")` returns null without a request; `getJob("42")` fetches `/internal/job/42`. */
  lemma GetJobExamples(c: Client, resp: Response)
    ensures GetJob(c, Str("not-a-number"), resp).None?
    ensures GetJob(c, Str("42"), resp).Some?
    ensures GetJob(c, Str("42"), resp).value.request.uri == c.baseUri + "/internal/job/42"
  {
    assert !IsDigits("not-a-number") by {
      assert !IsDigit("not-a-number"[0]);
    }
    assert ParseInt("42").Some? by {
      assert IsDigits("42");
    }
  }

  /** A job id given as a number or as that number's decimal text is fetched from the same path. */
  lemma GetJobNumberOrText(c: Client, n: PlainInt, resp: Response)
    ensures GetJob(c, Number(n), resp).Some?
    ensures GetJob(c, Number(n), resp) == GetJob(c, Str(IntToString(n)), resp)
  {
  }
}

=== FILE: service_protocol.dfy ===
/**
 * The API-key client as a whole: any public call on any client, and how its
 * response reading compares with the content-owner client's.
 */
module ServiceProtocol {
  import opened Wrappers
  import opened Js
  import opened Http
  import opened JobsPath
  import S = ServiceClient
  import C = ContentOwner

  /** A public call of the API-key client with its arguments. */
  datatype Op =
    | RegisterTask(name: Value, description: Value, startUrl: Value, cancelUrl: Value,
                   input: Value, output: Value, useRestCancel: Value)
    | SetTaskAvailability(taskId: Value, availability: Value)
    | DeleteTask(taskId: Value)
    | GetTasks
    | GetJobs(limit: Value, before: Value)
    | GetJob(jobId: Value)
    | SetStatus(jobId: Value, status: Value)
    | CancelJob(jobId: Value)
    | GetAssets(jobId: Value)
    | UploadAsset(asset: Value, jobId: Value)
    | FinishJob(jobId: Value, output: Value)

  /** The call's outcome; `None` when it returned null without sending anything. */
  function Perform(c: S.Client, op: Op, resp: Response): (o: Option<S.Call>)
    ensures o.None? <==> op.GetJob? && !IsNumericId(op.jobId)
    ensures o.Some? ==> KeyHeaderOf(c, o.value.request)
    ensures o.Some? ==> StartsWith(o.value.request.uri, c.baseUri + "/internal/")
    ensures o.Some? ==> (o.value.result.Ok? <==> Succeeded(resp))
  {
    match op
    case RegisterTask(name, description, startUrl, cancelUrl, input, output, useRestCancel) =>
      Some(S.RegisterTask(c, name, description, startUrl, cancelUrl, input, output, useRestCancel, resp))
    case SetTaskAvailability(id, availability) => Some(S.SetTaskAvailability(c, id, availability, resp))
    case DeleteTask(id) => Some(S.DeleteTask(c, id, resp))
    case GetTasks => Some(S.GetTasks(c, resp))
    case GetJobs(limit, before) => Some(S.GetJobs(c, limit, before, resp))
    case GetJob(id) => S.GetJob(c, id, resp)
    case SetStatus(id, status) => Some(S.SetStatus(c, id, status, resp))
    case CancelJob(id) => Some(S.CancelJob(c, id, resp))
    case GetAssets(id) => Some(S.GetAssets(c, id, resp))
    case UploadAsset(asset, id) => Some(S.UploadAsset(c, asset, id, resp))
    case FinishJob(id, output) => Some(S.FinishJob(c, id, output, resp))
  }

  /** The request carries the client's API key in the key header. */
  predicate KeyHeaderOf(c: S.Client, r: Request) {
    S.KeyHeader in r.headers && r.headers[S.KeyHeader] == c.apiKey
  }

  /** `_result` ignores its `autoLogout` argument. */
  lemma AutoLogoutIgnored(resp: Response)
    ensures S.Interpret(resp, true) == S.Interpret(resp, false)
  {
  }

  /** With auto-logout off, the content-owner client reads every response as the API-key client does. */
  lemma SameReadingWithoutAutoLogout(resp: Response, autoLogout: bool)
    ensures C.Interpret(resp, false) == S.Interpret(resp, autoLogout)
  {
  }

  /**
   * With auto-logout on, the two clients read a response differently exactly
   * when the code is Unauthorized, or when a non-200 has no body to read it from.
   */
  lemma AutoLogoutReadingDiffers(resp: Response)
    ensures C.Interpret(resp, true) != S.Interpret(resp, false) <==>
              if resp.data.None? then resp.status != 200 else resp.data.value.code == Unauthorized
  {
  }
}

=== FILE: session_protocol.dfy ===
/**
 * The content-owner client as a whole: any public call, applied to any
 * session, and sequences of calls. States what holds across operations.
 */
module SessionProtocol {
  import opened Wrappers
  import opened Js
  import opened Http
  import opened Errors
  import C = ContentOwner
  import opened JobsPath

  /** A public call of the content-owner client with its arguments. */
  datatype Call =
    | Login(username: Value, password: Value)
    | Logout
    | Ping
    | ChangePassword(oldPassword: string, newPassword: string, verification: string)
    | GetServices
    | GetService(serviceId: Value)
    | PostJob(publicationDate: Value, expirationDate: Value, tasks: Value)
    | CancelJob(jobId: Value)
    | GetJobs(limit: Value, beforeJobId: Value)
    | GetJob(jobId: Value)

  /** Every call but login starts with the logged-out check. */
  predicate NeedsLogin(c: Call) {
    !c.Login?
  }

  /** Calls whose response is read with auto-logout on. */
  predicate AutoLogout(c: Call) {
    !c.Logout? && !c.ChangePassword?
  }

  function Apply(s: C.Session, c: Call, resp: Response): (o: C.Step)
    ensures NeedsLogin(c) && !s.loggedIn ==> C.Refused(s, o, NotLoggedIn)
    ensures C.Valid(s) ==> C.Valid(o.state)
    ensures o.state.baseUri == s.baseUri
    ensures o.state != s ==> c.Login? || c.Logout?
    ensures o.request.Some? ==> StartsWith(o.request.value.uri, s.baseUri)
  {
    match c
    case Login(u, p) => C.Login(s, u, p, resp)
    case Logout => C.Logout(s, resp)
    case Ping => C.Ping(s, resp)
    case ChangePassword(current, chosen, verification) => C.ChangePassword(s, current, chosen, verification, resp)
    case GetServices => C.GetServices(s, resp)
    case GetService(id) => C.GetService(s, id, resp)
    case PostJob(publication, expiration, tasks) => C.PostJob(s, publication, expiration, tasks, resp)
    case CancelJob(id) => C.CancelJob(s, id, resp)
    case GetJobs(limit, before) => C.GetJobs(s, limit, before, resp)
    case GetJob(id) => C.GetJob(s, id, resp)
  }

  /** The session after a sequence of calls, each answered by its paired response. */
  function Run(s: C.Session, trace: seq<(Call, Response)>): (r: C.Session)
    ensures C.Valid(s) ==> C.Valid(r)
    ensures r.baseUri == s.baseUri
    decreases |trace|
  {
    if |trace| == 0 then s else Run(Apply(s, trace[0].0, trace[0].1).state, trace[1..])
  }

  /** The session a fresh client reaches after `trace` is always a valid one. */
  lemma ReachableSessionsAreValid(baseUri: string, trace: seq<(Call, Response)>)
    ensures C.Valid(Run(C.New(baseUri), trace))
  {
  }

  /** A login whose response carries the Success code, whatever its status. */
  predicate LoginWithSuccessCode(step: (Call, Response)) {
    step.0.Login? && step.1.data.Some? && step.1.data.value.code == Success
  }

  /** The only way into the logged-in state is a login whose response carries the Success code. */
  lemma {:induction false} LoggedInOnlyThroughLogin(s: C.Session, trace: seq<(Call, Response)>)
    requires !s.loggedIn
    requires Run(s, trace).loggedIn
    ensures exists i :: 0 <= i < |trace| && LoginWithSuccessCode(trace[i])
    decreases |trace|
  {
    if |trace| > 0 {
      var next := Apply(s, trace[0].0, trace[0].1).state;
      assert Run(s, trace) == Run(next, trace[1..]);
      if next.loggedIn {
        assert LoginWithSuccessCode(trace[0]);
      } else {
        LoggedInOnlyThroughLogin(next, trace[1..]);
        var i :| 0 <= i < |trace[1..]| && LoginWithSuccessCode(trace[1..][i]);
        assert trace[i + 1] == trace[1..][i];
      }
    }
  }

  /**
   * The only way out of the logged-in state is a logout: no response to any
   * other call, Unauthorized included, ends the session.
   */
  lemma {:induction false} SessionEndsOnlyThroughLogout(s: C.Session, trace: seq<(Call, Response)>)
    requires s.loggedIn
    requires !Run(s, trace).loggedIn
    ensures exists i :: 0 <= i < |trace| && trace[i].0.Logout?
    decreases |trace|
  {
    if |trace| > 0 {
      var next := Apply(s, trace[0].0, trace[0].1).state;
      assert Run(s, trace) == Run(next, trace[1..]);
      if !next.loggedIn {
        assert trace[0].0.Logout?;
      } else {
        SessionEndsOnlyThroughLogout(next, trace[1..]);
        var i :| 0 <= i < |trace[1..]| && trace[1..][i].0.Logout?;
        assert trace[i + 1] == trace[1..][i];
      }
    }
  }

  /** While logged out, every call but login throws NotLoggedIn and sends nothing. */
  lemma LoggedOutCallsSendNothing(s: C.Session, c: Call, resp: Response)
    requires !s.loggedIn && NeedsLogin(c)
    ensures Apply(s, c, resp).request.None?
    ensures Apply(s, c, resp).result == Err(NotLoggedIn)
    ensures Apply(s, c, resp).state == s
  {
  }

  /** A logout followed by any second logout: the second throws NotLoggedIn without a request. */
  lemma SecondLogoutFails(s: C.Session, first: Response, second: Response)
    requires s.loggedIn
    ensures var after := Apply(s, Logout, first).state;
            !after.loggedIn && C.Refused(after, Apply(after, Logout, second), NotLoggedIn)
  {
  }

  /**
   * After a login answered with the Success code, the next call sends the
   * returned token in the session header, and a ping succeeds exactly when its own response does.
   */
  lemma LoginThenPing(s: C.Session, username: Value, password: Value, resp: Response, pingResp: Response)
    requires resp.data.Some? && resp.data.value.code == Success
    ensures var after := Apply(s, Login(username, password), resp).state;
            var ping := Apply(after, Ping, pingResp);
            && ping.request.Some?
            && ping.request.value.headers == map[C.SessionHeader := resp.data.value.sessionToken]
            && (ping.result.Ok? <==> Succeeded(pingResp))
  {
  }

  /**
   * On a logged-in session, every request carries the session header except
   * the one `postJob` sends, which carries no header at all.
   */
  lemma OnlyPostJobOmitsSessionHeader(s: C.Session, c: Call, resp: Response)
    requires C.Valid(s) && s.loggedIn && NeedsLogin(c)
    requires Apply(s, c, resp).request.Some?
    ensures C.SessionHeader in Apply(s, c, resp).request.value.headers <==> !c.PostJob?
    ensures c.PostJob? ==> Apply(s, c, resp).request.value.headers == map[]
  {
  }

  /**
   * An Unauthorized code on an auto-logout call does not log out: the call of
   * the boolean `_loggedIn` throws a TypeError and the session stays as it was.
   */
  lemma UnauthorizedKeepsSession(s: C.Session, c: Call, resp: Response)
    requires s.loggedIn && AutoLogout(c) && !c.Login?
    requires resp.data.Some? && resp.data.value.code == Unauthorized
    ensures Apply(s, c, resp).state == s
    ensures Apply(s, c, resp).result == Err(TypeError(LoggedInNotCallable))
  {
  }

  /** A wrong old password (any failing response) leaves the session of `changePassword` untouched. */
  lemma ChangePasswordKeepsSession(s: C.Session, current: string, chosen: string, resp: Response)
    requires s.loggedIn && !Succeeded(resp) && resp.data.Some?
    ensures var o := Apply(s, ChangePassword(current, chosen, chosen), resp);
            o.state == s && o.result == Err(Service(NewError(resp)))
  {
  }
}

=== FILE: wrappers.dfy ===
/** Failure-carrying wrappers shared by every module of the model. */
module Wrappers {

  /** An optional value: `None` stands for an absent JavaScript property or a `null` return. */
  datatype Option<+T> = None | Some(value: T)

  /** The outcome of a call: the resolved value, or the error it throws or rejects with. */
  datatype Result<+T, +E> = Ok(value: T) | Err(error: E)
}
